=== FILE: README.md ===
# BingWallpaperDownloader, modelled in Dafny

This project models the core of `BingWallpaperDownloader`, a console tool. The tool:

- fetches a listing page of Bing wallpapers;
- finds each wallpaper block on the page with one regular expression;
- turns the block's date into a `root/YYYY/MM/YYYYMMDD.jpg` path;
- reduces the image URL to its `id=` parameter;
- downloads every image whose file does not yet exist.

The model has these modules:

- `Strings` (strings.dfy): the parts of `java.lang.String` the tool uses, on `seq<char>`.
  - `indexOf`.
  - `split` on one character.
  - `trim`, which removes the characters at or below U+0020 from both ends of the string, and only from the ends.
  - `replace("-", "")`.
- `UrlCanonicalizer` (canonical.dfy): `removeParametersExcept`.
  - The result is the part of the URL before the first `?`.
  - It is followed by `?` and the first `&`-separated parameter that starts with `id=`, when there is one.
- `ListingParser` (listing.dfy): the `while (matcher.find())` scan of the listing page. The pattern is `<img class="bigImg".*?src="(.*?)".*?<p>(.*?) <a href="` with DOTALL.
  - A match is a chain of five landmarks.
  - `find` returns the chain with the leftmost start. Among chains with that start, it returns the one whose landmarks come earliest, which is the one the reluctant quantifiers settle on.
  - The next `find` resumes at the end of the match.
  - The scan is a first-occurrence scanner, proved to produce exactly this find sequence.
- `PathDeriver` (paths.dfy): how the date and the destination path are derived.
  - The date text is trimmed and loses every `-`.
  - `substring(0, 4)` and `substring(4, 6)` name the year and month directories.
  - The file is `root sep YYYY sep MM sep date .jpg`.
- `PageUrl` (page_url.dfy): `isValidUrl`, a recogniser for `http(s)?://bing\.iamdt\.cn/(\d{4}-\d{2}\.html)?`, proved to accept exactly that language. Also `main`'s fallback to the default page URL.
- `Downloader` (downloader.dfy): the per-record loop of `main`.
  - The file system is the set of existing paths.
  - Each download attempt is an oracle `nat -> Fetch`: attempt `k` of the run either downloaded the image or failed.
  - A failure says whether `Files.copy` left a partial file behind.
  - `RunLoop` is the loop as a method. It is proved equal to the functional `Run`.
- `Examples` (examples.dfy): worked examples on concrete inputs.

These behaviours of the code are modelled as written:

- Nothing in `main` catches an unchecked exception, so the two the model covers end the run at the record that raises them. No later record is processed.
  - A date shorter than six characters makes `substring` throw `StringIndexOutOfBoundsException`. `Report.stoppedBy` is `Some(InvalidDate(date))`.
  - `Paths.get` throws `InvalidPathException` on a path the platform rejects. This can happen for the year/month directory (in `createSaveDir`, before its `try`) or for the file (in the existence check). An example is a date text holding a NUL character, which `trim` keeps because it is inside the text. `Report.stoppedBy` is `Some(InvalidPath(path))`. Which strings the platform accepts is the parameter `Config.validPath`.
- The date needs only six characters. Nothing checks that they are digits or that there are eight of them.
- A failed download does not end the run; the loop reports it and goes on.
- A failed `Files.copy` may leave a partial file behind. The existence check then treats that file as present, so every later run skips it. The re-run lemmas are stated for every file the first run left on disk.

## Model

All source paths are in `BingWallpaper/src/cn/iamdt/downloader/BingWallpaperDownloader.java`.

| member | source | states |
|---|---|---|
| Strings.IndexOf | BingWallpaper/src/cn/iamdt/downloader/BingWallpaperDownloader.java:109 | `indexOf` returns the first position at or after `from` where the pattern occurs, and returns none (Java's -1) exactly when it occurs nowhere from there |
| Strings.StartsWith | BingWallpaper/src/cn/iamdt/downloader/BingWallpaperDownloader.java:119 | `startsWith(prefix)`: the string begins with the prefix, which is no longer than the string |
| Strings.IndexOfChar | BingWallpaper/src/cn/iamdt/downloader/BingWallpaperDownloader.java:109-110 | for one character, `indexOf` gives its first occurrence, and -1 exactly when the character is absent |
| Strings.Split | BingWallpaper/src/cn/iamdt/downloader/BingWallpaperDownloader.java:115 | `split("&")` gives at least one part; no part holds the separator; joining the parts with the separator gives back the string |
| Strings.SplitFirst | BingWallpaper/src/cn/iamdt/downloader/BingWallpaperDownloader.java:115 | splitting `a & b`, where `a` holds no separator, gives `a` followed by the parts of `b` |
| Strings.SplitNoSeparator | BingWallpaper/src/cn/iamdt/downloader/BingWallpaperDownloader.java:115 | a string without the separator splits into itself alone |
| Strings.TrimStart | BingWallpaper/src/cn/iamdt/downloader/BingWallpaperDownloader.java:72 | the leading characters dropped are all at or below U+0020, and the first one kept is not |
| Strings.TrimEnd | BingWallpaper/src/cn/iamdt/downloader/BingWallpaperDownloader.java:72 | the trailing characters dropped are all at or below U+0020, and the last one kept is not |
| Strings.Trim | BingWallpaper/src/cn/iamdt/downloader/BingWallpaperDownloader.java:72-73 | `trim` never lengthens the string, and its result starts and ends with a character above U+0020, unless it is empty |
| Strings.TrimCutsBlanks | BingWallpaper/src/cn/iamdt/downloader/BingWallpaperDownloader.java:72-73 | `trim` returns a slice of the string, and every character cut off on either side is at or below U+0020 |
| Strings.TrimIdempotent | BingWallpaper/src/cn/iamdt/downloader/BingWallpaperDownloader.java:72 | trimming a trimmed string changes nothing |
| Strings.RemoveAll | BingWallpaper/src/cn/iamdt/downloader/BingWallpaperDownloader.java:73 | after `replace("-", "")` no `-` is left, and the string is no longer than before |
| Strings.RemoveAllCounts | BingWallpaper/src/cn/iamdt/downloader/BingWallpaperDownloader.java:73 | every other character is kept as often as it occurred; the length drops by exactly the number of `-` |
| Strings.RemoveAllAppend | BingWallpaper/src/cn/iamdt/downloader/BingWallpaperDownloader.java:73 | deletion works piecewise over concatenation, so the kept characters stay in their order |
| Strings.RemoveAllAbsent | BingWallpaper/src/cn/iamdt/downloader/BingWallpaperDownloader.java:73 | a string without `-` is left unchanged |
| UrlCanonicalizer.Base | BingWallpaper/src/cn/iamdt/downloader/BingWallpaperDownloader.java:109-114 | the base URL is the prefix before the first `?`, holds no `?`, and is the whole URL exactly when there is no `?` |
| UrlCanonicalizer.Query | BingWallpaper/src/cn/iamdt/downloader/BingWallpaperDownloader.java:115 | `url.substring(paramStart + 1)`: the text after the first `?`, so that the URL is its base, `?` and its query |
| UrlCanonicalizer.FirstIdParameter | BingWallpaper/src/cn/iamdt/downloader/BingWallpaperDownloader.java:118-123 | the loop stops at the first parameter starting with `id=`; none comes before it, and none is found only when no parameter starts with `id=` |
| UrlCanonicalizer.RemoveParametersExcept | BingWallpaper/src/cn/iamdt/downloader/BingWallpaperDownloader.java:108-126 | a URL without `?` is returned unchanged; any result is the base URL, possibly followed by `?` and one `id=` parameter holding no `&` |
| UrlCanonicalizer.KeepsFirstIdParameter | BingWallpaper/src/cn/iamdt/downloader/BingWallpaperDownloader.java:114-125 | for a URL with a query: the result is the base alone exactly when no parameter starts with `id=`, and otherwise base `?` the first such parameter |
| UrlCanonicalizer.BaseOfCanonical | BingWallpaper/src/cn/iamdt/downloader/BingWallpaperDownloader.java:109-114 | the base of `b ? p` is `b` when `b` holds no `?` |
| UrlCanonicalizer.FixedPoints | BingWallpaper/src/cn/iamdt/downloader/BingWallpaperDownloader.java:108-126 | the URLs left unchanged are exactly those without `?` and those whose whole query is one `id=` parameter |
| UrlCanonicalizer.Idempotent | BingWallpaper/src/cn/iamdt/downloader/BingWallpaperDownloader.java:108-126 | canonicalising a canonical URL changes nothing |
| UrlCanonicalizer.SkipsLeadingParameter | BingWallpaper/src/cn/iamdt/downloader/BingWallpaperDownloader.java:118-122 | a leading parameter that does not start with `id=` has no effect on the result |
| UrlCanonicalizer.KeepsLeadingId | BingWallpaper/src/cn/iamdt/downloader/BingWallpaperDownloader.java:119-121 | a leading `id=` parameter is kept, and everything after it is dropped (`break`) |
| ListingParser.IsChain | BingWallpaper/src/cn/iamdt/downloader/BingWallpaperDownloader.java:68 | one way the DOTALL pattern matches at a position: the marker there, then `src="`, the closing `"`, `<p>` and ` <a href="`, each at or after the end of the one before |
| ListingParser.IsFindResult | BingWallpaper/src/cn/iamdt/downloader/BingWallpaperDownloader.java:68-71 | what `find` returns from a position: a match of the pattern starting there or later, with no match starting earlier, and with the earliest landmarks among matches at its start (the reluctant choice) |
| ListingParser.IsFindSequence | BingWallpaper/src/cn/iamdt/downloader/BingWallpaperDownloader.java:71 | the matches the `while (matcher.find())` loop visits: each is `find`'s result from the end of the one before, and the loop stops when no match is left |
| ListingParser.EarliestChain | BingWallpaper/src/cn/iamdt/downloader/BingWallpaperDownloader.java:68 | the landmarks found after a marker form a match of the pattern at that marker, and the URL capture holds no `"` |
| ListingParser.EarliestChainIsEarliest | BingWallpaper/src/cn/iamdt/downloader/BingWallpaperDownloader.java:68-71 | those landmarks come no later than those of any match starting at or after the marker; when none are found, no match starts anywhere at or after the marker |
| ListingParser.FindAtFirstMarker | BingWallpaper/src/cn/iamdt/downloader/BingWallpaperDownloader.java:71 | `find` from a position returns the earliest chain at the first marker, and nothing when there is no marker or that marker has no chain |
| ListingParser.ScanFrom | BingWallpaper/src/cn/iamdt/downloader/BingWallpaperDownloader.java:68-71 | the scan yields the find sequence: each match is `find`'s result from the end of the one before, and the scan ends when no match is left |
| ListingParser.FindResultUnique | BingWallpaper/src/cn/iamdt/downloader/BingWallpaperDownloader.java:71 | `find` from a position has at most one result |
| ListingParser.FindSequenceUnique | BingWallpaper/src/cn/iamdt/downloader/BingWallpaperDownloader.java:71 | two sequences that both follow `find`'s rule from the same position are equal |
| ListingParser.ScanIsFindLoop | BingWallpaper/src/cn/iamdt/downloader/BingWallpaperDownloader.java:68-71 | any sequence of matches the `while (matcher.find())` loop could visit from the start of the page is exactly the scan |
| ListingParser.FindResultQuoteFree | BingWallpaper/src/cn/iamdt/downloader/BingWallpaperDownloader.java:68 | the reluctant group 1 of a `find` result stops at the first `"` |
| ListingParser.FindSequenceOrdered | BingWallpaper/src/cn/iamdt/downloader/BingWallpaperDownloader.java:68-71 | the matches visited are matches of the pattern, in document order, do not overlap, and have quote-free URL captures |
| ListingParser.Captures | BingWallpaper/src/cn/iamdt/downloader/BingWallpaperDownloader.java:72-73 | group 1 of a quote-free match holds no `"` |
| ListingParser.Extract | BingWallpaper/src/cn/iamdt/downloader/BingWallpaperDownloader.java:68-73 | record i is groups 1 and 2 of the i-th match the `find` loop visits, so the records are in document order; no URL holds `"`; a page without a marker, or the empty page a failed fetch gives, yields none |
| PathDeriver.NormaliseDate | BingWallpaper/src/cn/iamdt/downloader/BingWallpaperDownloader.java:73 | the date holds no `-`, is no longer than its text, and keeps every other character of the trimmed text as often as it occurred |
| PathDeriver.Derive | BingWallpaper/src/cn/iamdt/downloader/BingWallpaperDownloader.java:74-75 | a destination exists exactly when the date has at least six characters; otherwise the error names the date |
| PathDeriver.Destination.Dir | BingWallpaper/src/cn/iamdt/downloader/BingWallpaperDownloader.java:79 | `saveSubDir`: the root, the separator, the first four characters of the date, the separator and the next two; the path that `createSaveDir` hands to `Paths.get` |
| PathDeriver.Destination.File | BingWallpaper/src/cn/iamdt/downloader/BingWallpaperDownloader.java:79-82 | the file path `saveDir sep year sep month sep date .jpg`, with year and month the first four and next two characters of the date |
| PathDeriver.DestinationLayout | BingWallpaper/src/cn/iamdt/downloader/BingWallpaperDownloader.java:74-82 | the year has four characters and the month two; together they are the first six of the date; the file is `root sep YYYY sep MM sep date .jpg`, and the date can be read back from it |
| PathDeriver.DistinctDatesDistinctFiles | BingWallpaper/src/cn/iamdt/downloader/BingWallpaperDownloader.java:82-85 | different dates give different file path strings |
| PageUrl.IsValidUrl | BingWallpaper/src/cn/iamdt/downloader/BingWallpaperDownloader.java:102-105 | `isValidUrl` as a recogniser: `http`, an optional `s`, `://bing.iamdt.cn/`, then nothing or `DDDD-DD.html`, covering the whole input |
| PageUrl.ArchiveTokens | BingWallpaper/src/cn/iamdt/downloader/BingWallpaperDownloader.java:103 | the token form of `(\d{4}-\d{2}\.html)?` accepts exactly the empty path and `DDDD-DD.html` |
| PageUrl.RecogniserAcceptsLanguage | BingWallpaper/src/cn/iamdt/downloader/BingWallpaperDownloader.java:102-105 | the recogniser accepts a URL exactly when the whole URL is one of the two site prefixes followed by an accepted path |
| PageUrl.ChoosePageUrl | BingWallpaper/src/cn/iamdt/downloader/BingWallpaperDownloader.java:41-47 | the chosen page URL is always valid: a valid input is kept; an empty or invalid input gives the default |
| Downloader.Prepare | BingWallpaper/src/cn/iamdt/downloader/BingWallpaperDownloader.java:72-85 | one record's pure steps, in `main`'s order: trim, normalise the date, take year and month, canonicalise the URL, check the directory path, then the file path |
| Downloader.PrepareAll | BingWallpaper/src/cn/iamdt/downloader/BingWallpaperDownloader.java:71-76 | every record of the page prepared, in order |
| Downloader.Run | BingWallpaper/src/cn/iamdt/downloader/BingWallpaperDownloader.java:71-95 | the loop over the page's records from the disk's files, with no attempt made yet |
| Downloader.PrepareSpec | BingWallpaper/src/cn/iamdt/downloader/BingWallpaperDownloader.java:72-85 | a date under six characters fails with that date; otherwise a rejected directory `root sep YYYY sep MM`, then a rejected file `... sep date .jpg`, fails with that path; otherwise the job is `removeParametersExcept(trim(url))`, the normalised date (no `-`), and that file, from which the date reads back |
| Downloader.Step | BingWallpaper/src/cn/iamdt/downloader/BingWallpaperDownloader.java:84-94 | an existing file is skipped and nothing changes; otherwise exactly one download is attempted; saved exactly when the file was absent and the attempt succeeded; a failure names the URL; only this record's file can appear |
| Downloader.RunJobs | BingWallpaper/src/cn/iamdt/downloader/BingWallpaperDownloader.java:71-95 | the run ends early exactly when some record is not processed; no file is ever removed; one attempt is counted per outcome that is not a skip |
| Downloader.RunStopsOnlyAtPreparationError | BingWallpaper/src/cn/iamdt/downloader/BingWallpaperDownloader.java:71-95 | outcomes follow the records in order, one per prepared record; download failures never end the run; of the steps modelled, only the exception of a record's preparation (too-short date, rejected path) does, and the error is that record's |
| Downloader.RunKeepsSaved | BingWallpaper/src/cn/iamdt/downloader/BingWallpaperDownloader.java:85-88 | every file reported as saved is on disk at the end of the run |
| Downloader.RerunSkipsExisting | BingWallpaper/src/cn/iamdt/downloader/BingWallpaperDownloader.java:84-94 | a run on a disk holding everything an earlier run left stops at the same record, and skips every record whose file that run left |
| Downloader.RerunSkipsSaved | BingWallpaper/src/cn/iamdt/downloader/BingWallpaperDownloader.java:84-94 | running the tool again over the same page skips every date the first run saved, whatever the network does |
| Downloader.RunPrefix | BingWallpaper/src/cn/iamdt/downloader/BingWallpaperDownloader.java:71-95 | the outcomes of the first n records do not depend on the records after them |
| Downloader.RunSkipsOnlyExisting | BingWallpaper/src/cn/iamdt/downloader/BingWallpaperDownloader.java:84-94 | a record is skipped when its file existed before the run, and otherwise only when an earlier record of the run attempted the same file |
| Downloader.RunLoop | BingWallpaper/src/cn/iamdt/downloader/BingWallpaperDownloader.java:71-95 | the loop, preparing each record as it reaches it and returning at the first exception, computes exactly the report of `Run` |
| Downloader.Session | BingWallpaper/src/cn/iamdt/downloader/BingWallpaperDownloader.java:41-71 | the page fetched is always a valid page URL; a failed page fetch gives an empty page, so no record and no change on disk |
| Examples.CanonicalKeepsId | BingWallpaper/src/cn/iamdt/downloader/BingWallpaperDownloader.java:108-126 | `base?x=1&id=42&y=3` becomes `base?id=42` |
| Examples.CanonicalDropsOtherQuery | BingWallpaper/src/cn/iamdt/downloader/BingWallpaperDownloader.java:114-125 | `base?a=1` becomes `base` |
| Examples.NormaliseDateExample | BingWallpaper/src/cn/iamdt/downloader/BingWallpaperDownloader.java:73 | `2024-03-15 ` becomes `20240315` |
| Examples.TrimExample | BingWallpaper/src/cn/iamdt/downloader/BingWallpaperDownloader.java:72 | `2024-03-15 ` trims to `2024-03-15` |
| Examples.HyphensRemovedExample | BingWallpaper/src/cn/iamdt/downloader/BingWallpaperDownloader.java:73 | `2024-03-15` without `-` is `20240315` |
| Examples.DeriveExample | BingWallpaper/src/cn/iamdt/downloader/BingWallpaperDownloader.java:74-82 | date `20240315` under `/data` is stored as `/data/2024/03/20240315.jpg` |
| Examples.ArchivePageAccepted | BingWallpaper/src/cn/iamdt/downloader/BingWallpaperDownloader.java:102-105 | `https://bing.iamdt.cn/2024-03.html` is valid and is kept |
| Examples.NoSlashRejected | BingWallpaper/src/cn/iamdt/downloader/BingWallpaperDownloader.java:41-47 | `https://bing.iamdt.cn` (no final `/`) falls back to the default page |
| Examples.ShortMonthRejected | BingWallpaper/src/cn/iamdt/downloader/BingWallpaperDownloader.java:41-47 | a one-digit month page falls back to the default page |
| Examples.OneBlockExtracted | BingWallpaper/src/cn/iamdt/downloader/BingWallpaperDownloader.java:68-73 | a page holding one block `<img class="bigImg" src="U"<p>D <a href="` gives exactly one record, with URL `U` and date text `D` |
| Examples.TwoDayScenario | BingWallpaper/src/cn/iamdt/downloader/BingWallpaperDownloader.java:84-94 | with the first date on disk, it is skipped, the second is saved, and one attempt is made |
| Examples.SecondDownloadFails | BingWallpaper/src/cn/iamdt/downloader/BingWallpaperDownloader.java:86-91 | when the second download fails, the first stays saved, the failure names the second URL, and the run goes on to the end |

## Left out

- Console I/O is not modelled: the banner, the prompts, `Scanner`, and every `System.out` message. The page-URL input is a parameter of `Session`.
- The choice of save directory is not modelled: the prompt, `isValidPath`, and `ROOT_SAVE_DIR` (which reads `user.home`). The directory and `File.separator` are the parameters `Config.root` and `Config.sep`. Which paths `Paths.get` accepts is the parameter `Config.validPath`, because it depends on the platform.
- The directory creation in `createSaveDir` (`Files.exists` and `createDirectories`, lines 153-161) is not modelled, at the start or for each year/month directory. Its `Paths.get` (line 152) is modelled through `Config.validPath`. Only files are tracked, and a directory that fails to be created shows up only as a failed download.
- `downloadPageContent` is the parameter `fetchPage` of `Session`. Joining the lines with `\n` is left to that function.
- `downloadImage` is the oracle. The network, `Files.copy` and `REPLACE_EXISTING` are reduced to what the attempt did.
- Downloader.RunStopsOnlyAtPreparationError: `downloadImage` catches only `IOException`, so an unchecked exception from `new URL(imageUrl).openStream()` (for example the proxy selector's `IllegalArgumentException` for a URL with no host, such as `http:/x.jpg`) escapes `main` and ends the run at that record. This is not modelled, because the fetch is an oracle whose attempt either succeeds or fails; the lemma states that, of the steps modelled, only preparation ends the run.
- The general regular-expression engine is not modelled. Only the one listing pattern is modelled, as a scanner proved to follow `find`'s leftmost, reluctant rule.
- Java strings are sequences of UTF-16 code units. The model's characters stand for those units, and no encoding is modelled.
- Strings.Split: Java's `split` also drops trailing empty strings. The model keeps them, and this cannot change the result of `removeParametersExcept`, because an empty string never starts with `id=`.
- PathDeriver.NormaliseDate: its own contract states the characters kept and how often, not their order. The order is stated by `Strings.RemoveAllAppend`, and `Examples.NormaliseDateExample` uses it.
- Downloader.Session: it states the page-URL choice and the failed-fetch case. What happens to the page content is stated by `ListingParser.Extract`, `Downloader.RunLoop` and the `Run` lemmas.
- `Files.exists` is modelled as membership of the path string in the set of existing files. File systems that treat different strings as one file are not modelled, for instance by ignoring letter case.
- Files are not checked concurrently, or by another process between the existence check and the download.

=== FILE: canonical.dfy ===
/**
 `removeParametersExcept`: an image URL is reduced to the part before its
 first `?`, followed by `?` and the first `&`-separated query parameter that
 starts with `id=`, if there is one. Every other parameter is dropped.
 */
module UrlCanonicalizer {
  import opened Wrappers
  import opened Strings

  const IdPrefix: String := "id="

  /** The URL up to (not including) its first `?`; the whole URL if it has none. */
  function Base(url: String): (b: String)
    ensures '?' !in b
    ensures StartsWith(url, b)
    ensures b == url <==> '?' !in url
    ensures b != url ==> url[|b|] == '?'
  {
    IndexOfChar(url, '?');
    match IndexOf(url, "?", 0)
    case None => url
    case Some(q) => url[..q]
  }

  /** The text after the first `?`, which `removeParametersExcept` splits on `&`.
      The URL is its base, the `?` and its query. */
  function Query(url: String): (q: String)
    requires '?' in url
    ensures url == Base(url) + "?" + q
  {
    url[|Base(url)| + 1..]
  }

  /** Position of the first parameter that starts with `id=`. */
  function FirstIdParameter(params: seq<String>): (r: Option<nat>)
    ensures r.Some? ==> r.value < |params| && StartsWith(params[r.value], IdPrefix)
    ensures r.Some? ==> forall j :: 0 <= j < r.value ==> !StartsWith(params[j], IdPrefix)
    ensures r.None? ==> forall j :: 0 <= j < |params| ==> !StartsWith(params[j], IdPrefix)
    decreases |params|
  {
    if |params| == 0 then None
    else if StartsWith(params[0], IdPrefix) then Some(0)
    else match FirstIdParameter(params[1..])
      case None => None
      case Some(k) => Some(k + 1)
  }

  /** Some parameter starts with `id=`. */
  predicate HasIdParameter(params: seq<String>) {
    exists j :: 0 <= j < |params| && StartsWith(params[j], IdPrefix)
  }

  /** Parameter `k` is the first of `params` that starts with `id=`. */
  predicate IsFirstIdParameter(params: seq<String>, k: int) {
    && 0 <= k < |params| && StartsWith(params[k], IdPrefix)
    && forall j :: 0 <= j < k ==> !StartsWith(params[j], IdPrefix)
  }

  /** There is at most one first `id=` parameter. */
  lemma FirstIdParameterUnique(params: seq<String>, k: int, k': int)
    requires IsFirstIdParameter(params, k) && IsFirstIdParameter(params, k')
    ensures k == k'
  {
  }

  /** A query parameter the canonical form may keep: an `id=` parameter, which
      holds no `&`. */
  predicate IsKeptParameter(p: String) {
    StartsWith(p, IdPrefix) && '&' !in p
  }

  /** The shape of every canonical URL: its base, optionally followed by `?`
      and one kept parameter. */
  predicate IsCanonicalShape(url: String, r: String) {
    || r == Base(url)
    || (|r| > |Base(url)| && StartsWith(r, Base(url)) && r[|Base(url)|] == '?'
        && IsKeptParameter(r[|Base(url)| + 1..]))
  }

  function RemoveParametersExcept(url: String): (r: String)
    ensures '?' !in url ==> r == url
    ensures IsCanonicalShape(url, r)
  {
    if '?' !in url then url
    else
      var params := Split(Query(url), '&');
      match FirstIdParameter(params)
      case None => Base(url)
      case Some(k) =>
        var r := Base(url) + "?" + params[k];
        assert r[|Base(url)| + 1..] == params[k];
        r
  }

  /** The exact result for a URL with a query: the first `id=` parameter is
      kept after the base and everything else, including later `id=`
      parameters, is dropped; with no `id=` parameter the result is the base. */
  lemma KeepsFirstIdParameter(url: String)
    requires '?' in url
    ensures RemoveParametersExcept(url) == Base(url) <==> !HasIdParameter(Split(Query(url), '&'))
    ensures forall k :: IsFirstIdParameter(Split(Query(url), '&'), k) ==>
      RemoveParametersExcept(url) == Base(url) + "?" + Split(Query(url), '&')[k]
  {
    var params := Split(Query(url), '&');
    var r := RemoveParametersExcept(url);
    match FirstIdParameter(params)
    case None =>
    case Some(k) =>
      assert r == Base(url) + "?" + params[k];
      assert |r| > |Base(url)|;
      assert StartsWith(params[k], IdPrefix);
      forall k' | IsFirstIdParameter(params, k')
        ensures r == Base(url) + "?" + params[k']
      {
        FirstIdParameterUnique(params, k, k');
      }
      assert RemoveParametersExcept(url) != Base(url);
  }

  /** The base of base-plus-query is the base. */
  lemma BaseOfCanonical(b: String, p: String)
    requires '?' !in b
    ensures Base(b + "?" + p) == b
  {
    var u := b + "?" + p;
    var ub := Base(u);
    assert u[|b|] == '?';
    assert '?' in u;
    assert ub == u[..|ub|] == b;
  }

  /** The URLs left unchanged are exactly those without a query, and those
      whose query is one `id=` parameter. */
  lemma FixedPoints(url: String)
    ensures RemoveParametersExcept(url) == url
      <==> '?' !in url || IsKeptParameter(Query(url))
  {
    if '?' in url {
      var b := Base(url);
      assert url == b + "?" + Query(url) by {
        assert url[..|b|] == b;
      }
      var params := Split(Query(url), '&');
      if IsKeptParameter(Query(url)) {
        SplitNoSeparator(Query(url), '&');
        assert params == [Query(url)];
        assert FirstIdParameter(params) == Some(0);
      }
      if RemoveParametersExcept(url) == url {
        assert |url| > |b|;
        assert url[|b| + 1..] == Query(url);
      }
    }
  }

  /** Canonicalising twice gives the same URL as canonicalising once. */
  lemma Idempotent(url: String)
    ensures RemoveParametersExcept(RemoveParametersExcept(url)) == RemoveParametersExcept(url)
  {
    var r := RemoveParametersExcept(url);
    var b := Base(url);
    if r != b && '?' in url {
      var p := r[|b| + 1..];
      assert r == b + "?" + p by {
        assert r[..|b|] == b;
      }
      BaseOfCanonical(b, p);
      assert '?' in r by {
        assert r[|b|] == '?';
      }
      assert Query(r) == p;
      FixedPoints(r);
    } else if r == b && '?' in url {
      FixedPoints(r);
    } else {
      FixedPoints(r);
    }
  }

  /** A leading parameter that is not `id=` makes no difference. */
  lemma SkipsLeadingParameter(base: String, p: String, q: String)
    requires '?' !in base && '&' !in p && !StartsWith(p, IdPrefix)
    ensures RemoveParametersExcept(base + "?" + (p + "&" + q)) == RemoveParametersExcept(base + "?" + q)
  {
    BaseOfCanonical(base, p + "&" + q);
    BaseOfCanonical(base, q);
    assert Query(base + "?" + (p + "&" + q)) == p + "&" + q;
    assert Query(base + "?" + q) == q;
    SplitFirst(p, q, '&');
    var params := Split(q, '&');
    assert ([p] + params)[1..] == params;
  }

  /** A leading `id=` parameter is kept and everything after it dropped. */
  lemma KeepsLeadingId(base: String, p: String, q: String)
    requires '?' !in base && '&' !in p && StartsWith(p, IdPrefix)
    ensures RemoveParametersExcept(base + "?" + (p + "&" + q)) == base + "?" + p
  {
    BaseOfCanonical(base, p + "&" + q);
    assert Query(base + "?" + (p + "&" + q)) == p + "&" + q;
    SplitFirst(p, q, '&');
  }
}

=== FILE: downloader.dfy ===
/**
 The per-record loop of `main`: each record's URL is trimmed and
 canonicalised, its date normalised and turned into a destination; an
 existing destination is skipped, otherwise exactly one download is
 attempted. A failed download is reported and the loop goes on. Of the
 steps modelled, only a record's preparation ends the run, by an unchecked
 exception that `main` does not catch: a date too short for `substring`, or
 a directory or file path that `Paths.get` rejects.

 The file system is the set of existing file paths. The network is an
 oracle: `oracle(k)` is what the k-th download attempt of the run did.
 */
module Downloader {
  import opened Wrappers
  import opened Strings
  import opened ListingParser
  import opened UrlCanonicalizer
  import opened PathDeriver
  import opened PageUrl

  /** The save directory, the platform's `File.separator`, and which path
      strings the platform's `Paths.get` accepts (it throws
      `InvalidPathException` on the others, for instance on a NUL character). */
  datatype Config = Config(root: String, sep: String, validPath: String -> bool)

  /** A record ready for the existence check: canonical image URL,
      normalised date and destination file. */
  datatype Job = Job(url: String, date: String, file: String)

  /** What one `downloadImage` call did. `Files.copy` creates the target
      before copying, so a failed copy may leave a partial file behind. */
  datatype Fetch = Downloaded | FetchFailed(leftPartialFile: bool)

  /** What the loop reported for one record. */
  datatype Outcome = Skipped(file: String) | Saved(file: String) | Failed(url: String, file: String)

  /** The files on disk, and how many downloads the run has attempted. */
  datatype State = State(files: set<String>, attempts: nat)

  /** The outcomes of the records processed, the final state, and the error
      that ended the run early, if any. */
  datatype Report = Report(outcomes: seq<Outcome>, state: State, stoppedBy: Option<PathError>)

  /** The pure steps of one loop iteration, in the order `main` performs them:
      trim the captures, normalise the date, take year and month (which may
      throw), canonicalise the URL, create the year/month directory (whose
      `Paths.get` may throw), build the file path and test whether it exists
      (whose `Paths.get` may throw). */
  function Prepare(cfg: Config, rec: RawRecord): Result<Job, PathError> {
    var url := Trim(rec.url);
    var date := NormaliseDate(rec.dateText);
    match Derive(cfg.root, cfg.sep, date)
    case Failure(e) => Failure(e)
    case Success(dest) =>
      if !cfg.validPath(dest.Dir()) then Failure(InvalidPath(dest.Dir()))
      else if !cfg.validPath(dest.File()) then Failure(InvalidPath(dest.File()))
      else Success(Job(RemoveParametersExcept(url), date, dest.File()))
  }

  /** What preparation yields. A date shorter than six characters is an
      error naming the date; otherwise the year/month directory and then the
      file path must be accepted by `Paths.get`, or the error names the
      rejected path. A prepared job carries the canonical form of the trimmed
      URL, the normalised date, which holds no `-`, and the file
      `root sep YYYY sep MM sep date .jpg`, from which the date reads back. */
  lemma PrepareSpec(cfg: Config, rec: RawRecord)
    ensures var r := Prepare(cfg, rec);
      var date := NormaliseDate(rec.dateText);
      && (|date| < 6 ==> r == Failure(InvalidDate(date)))
      && (|date| >= 6 ==>
            var dir := cfg.root + cfg.sep + date[..4] + cfg.sep + date[4..6];
            var file := dir + cfg.sep + date + Extension;
            && (!cfg.validPath(dir) ==> r == Failure(InvalidPath(dir)))
            && (cfg.validPath(dir) && !cfg.validPath(file) ==> r == Failure(InvalidPath(file)))
            && (cfg.validPath(dir) && cfg.validPath(file) ==>
                  r == Success(Job(RemoveParametersExcept(Trim(rec.url)), date, file))))
      && (r.Success? ==> '-' !in r.value.date)
      && (r.Success? ==> DateOfFile(cfg.root, cfg.sep, r.value.file) == Some(r.value.date))
      && (r.Success? ==> IsCanonicalShape(Trim(rec.url), r.value.url))
  {
    var date := NormaliseDate(rec.dateText);
    if |date| >= 6 {
      DestinationLayout(cfg.root, cfg.sep, date);
    }
  }

  /** One record after preparation: skip an existing file, otherwise make
      exactly one download attempt and record what it left on disk. */
  function Step(st: State, job: Job, oracle: nat -> Fetch): (res: (Outcome, State))
    ensures res.0.file == job.file
    ensures res.0.Skipped? <==> job.file in st.files
    ensures res.0.Skipped? ==> res.1 == st
    ensures !res.0.Skipped? ==> res.1.attempts == st.attempts + 1
    ensures res.0.Saved? <==> job.file !in st.files && oracle(st.attempts) == Downloaded
    ensures res.0.Failed? ==> res.0.url == job.url
    ensures st.files <= res.1.files <= st.files + {job.file}
    ensures res.0.Saved? ==> job.file in res.1.files
  {
    if job.file in st.files then (Skipped(job.file), st)
    else
      var next := st.attempts + 1;
      match oracle(st.attempts)
      case Downloaded => (Saved(job.file), State(st.files + {job.file}, next))
      case FetchFailed(partial) =>
        var files := if partial then st.files + {job.file} else st.files;
        (Failed(job.url, job.file), State(files, next))
  }

  /** Number of outcomes that made a download attempt. */
  function Attempted(os: seq<Outcome>): nat {
    if |os| == 0 then 0 else (if os[0].Skipped? then 0 else 1) + Attempted(os[1..])
  }

  /** The loop from state `st` over records already prepared. Preparation is
      pure, so preparing every record up front and stopping at the first
      failure is the same as `main` preparing each record as it reaches it.
      Nothing is ever deleted, and the attempt counter grows by one per
      outcome that is not a skip. */
  function RunJobs(preps: seq<Result<Job, PathError>>, st: State, oracle: nat -> Fetch): (r: Report)
    ensures |r.outcomes| <= |preps|
    ensures r.stoppedBy.None? <==> |r.outcomes| == |preps|
    ensures st.files <= r.state.files
    ensures r.state.attempts == st.attempts + Attempted(r.outcomes)
    decreases |preps|
  {
    if |preps| == 0 then Report([], st, None)
    else
      match preps[0]
      case Failure(e) => Report([], st, Some(e))
      case Success(job) =>
        var (o, st') := Step(st, job, oracle);
        var rest := RunJobs(preps[1..], st', oracle);
        var os := [o] + rest.outcomes;
        assert os[1..] == rest.outcomes;
        Report(os, rest.state, rest.stoppedBy)
  }

  /** Each record prepared, in order. */
  function PrepareAll(cfg: Config, recs: seq<RawRecord>): (preps: seq<Result<Job, PathError>>)
    ensures |preps| == |recs|
    ensures forall i :: 0 <= i < |recs| ==> preps[i] == Prepare(cfg, recs[i])
    decreases |recs|
  {
    if |recs| == 0 then [] else [Prepare(cfg, recs[0])] + PrepareAll(cfg, recs[1..])
  }

  /** The per-record loop over the records of a page. */
  function Run(cfg: Config, recs: seq<RawRecord>, files: set<String>, oracle: nat -> Fetch): Report {
    RunJobs(PrepareAll(cfg, recs), State(files, 0), oracle)
  }

  /** Download failures never end the run: every job is processed, in
      order, up to the first record whose preparation throws, and that
      record's error is what ends the run. Of the steps modelled, only
      preparation can end it. */
  lemma {:induction false} RunStopsOnlyAtPreparationError(
    preps: seq<Result<Job, PathError>>, st: State, oracle: nat -> Fetch)
    ensures var r := RunJobs(preps, st, oracle);
      && (forall i :: 0 <= i < |r.outcomes| ==>
            preps[i].Success? && r.outcomes[i].file == preps[i].value.file)
      && (r.stoppedBy.Some? ==> preps[|r.outcomes|] == Failure(r.stoppedBy.value))
    decreases |preps|
  {
    if |preps| > 0 && preps[0].Success? {
      var st' := Step(st, preps[0].value, oracle).1;
      RunStopsOnlyAtPreparationError(preps[1..], st', oracle);
    }
  }

  /** Every file the report calls saved is on disk in its final state. */
  predicate SavedOnDisk(r: Report) {
    forall i :: 0 <= i < |r.outcomes| && r.outcomes[i].Saved? ==> r.outcomes[i].file in r.state.files
  }

  /** Every file reported as saved is on disk at the end of the run. */
  lemma {:induction false} RunKeepsSaved(
    preps: seq<Result<Job, PathError>>, st: State, oracle: nat -> Fetch)
    ensures SavedOnDisk(RunJobs(preps, st, oracle))
    decreases |preps|
  {
    if |preps| > 0 && preps[0].Success? {
      var st' := Step(st, preps[0].value, oracle).1;
      RunKeepsSaved(preps[1..], st', oracle);
      var rest := RunJobs(preps[1..], st', oracle);
      var r := RunJobs(preps, st, oracle);
      var o := Step(st, preps[0].value, oracle).0;
      assert r.outcomes == [o] + rest.outcomes && r.state == rest.state;
      forall i | 0 <= i < |r.outcomes| && r.outcomes[i].Saved?
        ensures r.outcomes[i].file in r.state.files
      {
        if i == 0 {
          assert o.file in st'.files;
        } else {
          assert r.outcomes[i] == rest.outcomes[i - 1];
        }
      }
    }
  }

  /** In `rb`, every record whose file `ra` left on disk is a skip. */
  predicate SkipsFilesOf(ra: Report, rb: Report) {
    && |rb.outcomes| == |ra.outcomes|
    && forall i :: 0 <= i < |ra.outcomes| && ra.outcomes[i].file in ra.state.files ==>
         rb.outcomes[i] == Skipped(ra.outcomes[i].file)
  }

  /** A run started on a disk holding everything another run over the same
      records left behind stops at the same record, and skips every record
      whose file that run left on disk. */
  lemma {:induction false} RerunSkipsExisting(
    preps: seq<Result<Job, PathError>>, a: State, oa: nat -> Fetch, b: State, ob: nat -> Fetch)
    requires RunJobs(preps, a, oa).state.files <= b.files
    ensures SkipsFilesOf(RunJobs(preps, a, oa), RunJobs(preps, b, ob))
    ensures RunJobs(preps, b, ob).stoppedBy == RunJobs(preps, a, oa).stoppedBy
    decreases |preps|
  {
    if |preps| > 0 && preps[0].Success? {
      var job := preps[0].value;
      var (oA, a') := Step(a, job, oa);
      var (oB, b') := Step(b, job, ob);
      var ra, rb := RunJobs(preps, a, oa), RunJobs(preps, b, ob);
      var restA, restB := RunJobs(preps[1..], a', oa), RunJobs(preps[1..], b', ob);
      assert ra.outcomes == [oA] + restA.outcomes && ra.state == restA.state;
      assert rb.outcomes == [oB] + restB.outcomes;
      RerunSkipsExisting(preps[1..], a', oa, b', ob);
      forall i | 0 <= i < |ra.outcomes| && ra.outcomes[i].file in ra.state.files
        ensures rb.outcomes[i] == Skipped(ra.outcomes[i].file)
      {
        if i > 0 {
          assert ra.outcomes[i] == restA.outcomes[i - 1];
          assert rb.outcomes[i] == restB.outcomes[i - 1];
        }
      }
    }
  }

  /** In `r2`, every record `r1` saved is a skip of the same file. */
  predicate SkipsSavedOf(r1: Report, r2: Report) {
    && |r2.outcomes| == |r1.outcomes|
    && forall i :: 0 <= i < |r1.outcomes| && r1.outcomes[i].Saved? ==>
         r2.outcomes[i] == Skipped(r1.outcomes[i].file)
  }

  /** Running the tool a second time over the same records, on the disk the
      first run left, reaches the same records and skips every date the
      first run saved without attempting a download. */
  lemma RerunSkipsSaved(cfg: Config, recs: seq<RawRecord>, files: set<String>,
                        o1: nat -> Fetch, o2: nat -> Fetch)
    ensures SkipsSavedOf(Run(cfg, recs, files, o1), Run(cfg, recs, Run(cfg, recs, files, o1).state.files, o2))
  {
    var preps := PrepareAll(cfg, recs);
    var r1 := RunJobs(preps, State(files, 0), o1);
    RunKeepsSaved(preps, State(files, 0), o1);
    RerunSkipsExisting(preps, State(files, 0), o1, State(r1.state.files, 0), o2);
  }

  /** The record processed first has the outcome it would have alone, and in
      general the outcomes of the first `n` records do not depend on the
      records after them: a later failure cannot change an earlier outcome. */
  lemma {:induction false} RunPrefix(
    preps: seq<Result<Job, PathError>>, st: State, oracle: nat -> Fetch, n: nat)
    requires n <= |RunJobs(preps, st, oracle).outcomes|
    ensures RunJobs(preps[..n], st, oracle).outcomes == RunJobs(preps, st, oracle).outcomes[..n]
    decreases n
  {
    if n > 0 {
      var job := preps[0].value;
      var (o, st') := Step(st, job, oracle);
      var rest := RunJobs(preps[1..], st', oracle);
      assert RunJobs(preps, st, oracle).outcomes == [o] + rest.outcomes;
      assert preps[..n][0] == preps[0] && preps[..n][1..] == preps[1..][..n - 1];
      RunPrefix(preps[1..], st', oracle, n - 1);
      assert RunJobs(preps[..n], st, oracle).outcomes == [o] + rest.outcomes[..n - 1];
    }
  }

  /** An earlier outcome of the run made a download attempt for the same file. */
  ghost predicate AttemptedEarlier(os: seq<Outcome>, i: int)
    requires 0 <= i < |os|
  {
    exists j :: 0 <= j < i && !os[j].Skipped? && os[j].file == os[i].file
  }

  /** A record is skipped when its file was on disk before the run, and only
      then or when an earlier record of the run attempted the same file. */
  ghost predicate SkipsOnlyExisting(r: Report, files: set<String>) {
    forall i :: 0 <= i < |r.outcomes| ==>
      && (r.outcomes[i].file in files ==> r.outcomes[i].Skipped?)
      && (r.outcomes[i].Skipped? ==> r.outcomes[i].file in files || AttemptedEarlier(r.outcomes, i))
  }

  lemma {:induction false} RunSkipsOnlyExisting(
    preps: seq<Result<Job, PathError>>, st: State, oracle: nat -> Fetch)
    ensures SkipsOnlyExisting(RunJobs(preps, st, oracle), st.files)
    decreases |preps|
  {
    if |preps| > 0 && preps[0].Success? {
      var job := preps[0].value;
      var (o, st') := Step(st, job, oracle);
      var r := RunJobs(preps, st, oracle);
      var rest := RunJobs(preps[1..], st', oracle);
      assert r.outcomes == [o] + rest.outcomes;
      RunSkipsOnlyExisting(preps[1..], st', oracle);
      forall i | 0 <= i < |r.outcomes|
        ensures r.outcomes[i].file in st.files ==> r.outcomes[i].Skipped?
        ensures r.outcomes[i].Skipped? ==> r.outcomes[i].file in st.files || AttemptedEarlier(r.outcomes, i)
      {
        if i > 0 {
          assert r.outcomes[i] == rest.outcomes[i - 1];
          if r.outcomes[i].Skipped? && r.outcomes[i].file !in st.files {
            if r.outcomes[i].file in st'.files {
              assert !o.Skipped? && o.file == r.outcomes[i].file;
              assert AttemptedEarlier(r.outcomes, i);
            } else {
              var j :| 0 <= j < i - 1 && !rest.outcomes[j].Skipped? && rest.outcomes[j].file == rest.outcomes[i - 1].file;
              assert r.outcomes[j + 1] == rest.outcomes[j];
            }
          }
        }
      }
    }
  }

  /** A report with `os` prepended to the outcomes of `r`. */
  function Prepend(os: seq<Outcome>, r: Report): Report {
    Report(os + r.outcomes, r.state, r.stoppedBy)
  }

  /** One iteration of the loop, read off `RunJobs`: a failed preparation
      ends the report, a prepared job moves one outcome into the prefix. */
  lemma RunJobsUnfold(os: seq<Outcome>, preps: seq<Result<Job, PathError>>, i: nat,
                      st: State, oracle: nat -> Fetch)
    requires i < |preps|
    ensures preps[i].Failure? ==>
      Prepend(os, RunJobs(preps[i..], st, oracle)) == Report(os, st, Some(preps[i].error))
    ensures preps[i].Success? ==>
      var step := Step(st, preps[i].value, oracle);
      Prepend(os, RunJobs(preps[i..], st, oracle)) == Prepend(os + [step.0], RunJobs(preps[i + 1..], step.1, oracle))
  {
    assert preps[i..][0] == preps[i] && preps[i..][1..] == preps[i + 1..];
    assert os + [] == os;
    if preps[i].Success? {
      var (o, st') := Step(st, preps[i].value, oracle);
      var r := RunJobs(preps[i + 1..], st', oracle);
      assert (os + [o]) + r.outcomes == os + ([o] + r.outcomes);
    }
  }

  /** `main`'s `while (matcher.find())` loop, one record per iteration: it
      computes exactly the report of `Run`. */
  method RunLoop(cfg: Config, recs: seq<RawRecord>, files: set<String>, oracle: nat -> Fetch)
    returns (r: Report)
    ensures r == Run(cfg, recs, files, oracle)
  {
    ghost var preps := PrepareAll(cfg, recs);
    ghost var target := RunJobs(preps, State(files, 0), oracle);
    assert preps[0..] == preps && [] + target.outcomes == target.outcomes;
    var outcomes: seq<Outcome> := [];
    var st := State(files, 0);
    var i := 0;
    while i < |recs|
      invariant 0 <= i <= |recs|
      invariant target == Prepend(outcomes, RunJobs(preps[i..], st, oracle))
    {
      var prep := Prepare(cfg, recs[i]);
      assert prep == preps[i];
      RunJobsUnfold(outcomes, preps, i, st, oracle);
      match prep
      case Failure(e) =>
        return Report(outcomes, st, Some(e));
      case Success(job) =>
        var step := Step(st, job, oracle);
        outcomes, st := outcomes + [step.0], step.1;
      i := i + 1;
    }
    assert preps[i..] == [] && outcomes + [] == outcomes;
    r := Report(outcomes, st, None);
  }

  /** `main` after its prompts: choose the page URL, fetch the page (an empty
      page when the fetch fails), scan it and run the loop. Returns the page
      URL used and the report. */
  function Session(cfg: Config, input: String, fetchPage: String -> Option<String>,
                   files: set<String>, oracle: nat -> Fetch): (res: (String, Report))
    ensures IsValidUrl(res.0)
    ensures fetchPage(res.0).None? ==> res.1 == Report([], State(files, 0), None)
  {
    var pageUrl := ChoosePageUrl(input);
    var html := match fetchPage(pageUrl) case Some(page) => page case None => "";
    (pageUrl, Run(cfg, Extract(html), files, oracle))
  }
}

=== FILE: examples.dfy ===
/**
 Worked examples of the pipeline on concrete inputs. The URL and date
 examples name the pieces of their input as parameters, each fixed by a
 `requires`, so that the general lemmas about those pieces apply.
 */
module Examples {
  import opened Wrappers
  import opened Strings
  import opened UrlCanonicalizer
  import opened PathDeriver
  import opened ListingParser
  import opened PageUrl
  import opened Downloader

  /** Only the `id` parameter survives, wherever it stands in the query:
      `base?x=1&id=42&y=3` becomes `base?id=42`. */
  lemma CanonicalKeepsId(url: String, base: String, other: String, id: String, tail: String)
    requires '?' !in base && other == "x=1" && id == "id=42" && tail == "y=3"
    requires url == base + "?" + (other + "&" + (id + "&" + tail))
    ensures RemoveParametersExcept(url) == base + "?" + id
  {
    assert !StartsWith(other, IdPrefix) by {
      assert other[0] != IdPrefix[0];
    }
    assert StartsWith(id, IdPrefix) by {
      assert id[..3] == IdPrefix;
    }
    SkipsLeadingParameter(base, other, id + "&" + tail);
    KeepsLeadingId(base, id, tail);
  }

  /** A query without an `id` parameter is dropped whole: `base?a=1`
      becomes `base`. */
  lemma CanonicalDropsOtherQuery(url: String, base: String, param: String)
    requires '?' !in base && param == "a=1" && url == base + "?" + param
    ensures RemoveParametersExcept(url) == base
  {
    BaseOfCanonical(base, param);
    assert Query(url) == param;
    SplitNoSeparator(param, '&');
    assert !StartsWith(param, IdPrefix) by {
      assert param[0] != IdPrefix[0];
    }
  }

  /** The published date form `YYYY-MM-DD`, padded with a blank, becomes
      `YYYYMMDD`. */
  lemma NormaliseDateExample(text: String, y: String, m: String, d: String)
    requires y == "2024" && m == "03" && d == "15" && text == y + "-" + m + "-" + d + " "
    ensures NormaliseDate(text) == y + m + d
  {
    TrimExample(text, y + "-" + m + "-" + d);
    HyphensRemovedExample(y, m, d);
  }

  /** The trailing blank is trimmed and nothing else. */
  lemma TrimExample(text: String, date: String)
    requires date == "2024-03-15" && text == date + " "
    ensures Trim(text) == date
  {
    assert TrimStart(text) == text;
    assert text[..|text| - 1] == date;
    assert TrimEnd(date) == date;
  }

  lemma HyphensRemovedExample(y: String, m: String, d: String)
    requires y == "2024" && m == "03" && d == "15"
    ensures RemoveAll(y + "-" + m + "-" + d, '-') == y + m + d
  {
    RemoveAllAppend(y + "-" + m + "-", d, '-');
    RemoveAllAppend(y + "-" + m, "-", '-');
    RemoveAllAppend(y + "-", m, '-');
    RemoveAllAppend(y, "-", '-');
    RemoveAllAbsent(y, '-');
    RemoveAllAbsent(m, '-');
    RemoveAllAbsent(d, '-');
  }

  /** Date `20240315` under `/data` lands in `/data/2024/03`. */
  lemma DeriveExample()
    ensures Derive("/data", "/", "20240315").value.File() == "/data/2024/03/20240315.jpg"
  {
  }

  /** An archive page of the site is a valid page URL, and is kept. */
  lemma ArchivePageAccepted()
    ensures ChoosePageUrl("https://bing.iamdt.cn/2024-03.html") == "https://bing.iamdt.cn/2024-03.html"
  {
    var url, page := "https://bing.iamdt.cn/2024-03.html", "2024-03.html";
    assert url == HttpsSite + page;
    assert url[..|HttpsSite|] == HttpsSite && url[|HttpsSite|..] == page;
    ArchivePathChars(page);
    RecogniserAcceptsLanguage(url);
  }

  /** The site without its trailing slash is rejected, so the default page is
      used instead. */
  lemma NoSlashRejected()
    ensures ChoosePageUrl("https://bing.iamdt.cn") == DefaultPageUrl
  {
    RecogniserAcceptsLanguage("https://bing.iamdt.cn");
  }

  /** A one-digit month is rejected, so the default page is used instead. */
  lemma ShortMonthRejected()
    ensures ChoosePageUrl("https://bing.iamdt.cn/2024-3.html") == DefaultPageUrl
  {
    var url := "https://bing.iamdt.cn/2024-3.html";
    RecogniserAcceptsLanguage(url);
    OnePrefix(url);
  }

  /** Two dates, the first already on disk: the first is skipped, the second
      downloaded, and exactly one new file appears. */
  lemma TwoDayScenario(j1: Job, j2: Job, oracle: nat -> Fetch)
    requires j1.file != j2.file && oracle(0) == Downloaded
    ensures RunJobs([Success(j1), Success(j2)], State({j1.file}, 0), oracle)
         == Report([Skipped(j1.file), Saved(j2.file)], State({j1.file, j2.file}, 1), None)
  {
    var preps: seq<Result<Job, PathError>> := [Success(j1), Success(j2)];
    var s0 := State({j1.file}, 0);
    var s2 := State({j1.file, j2.file}, 1);
    var step1 := Step(s0, j1, oracle);
    assert step1 == (Skipped(j1.file), s0);
    var step2 := Step(s0, j2, oracle);
    assert step2.1.files == s2.files;
    assert step2 == (Saved(j2.file), s2);
    assert preps[1..] == [Success(j2)] && preps[1..][1..] == [];
    assert RunJobs(preps[1..][1..], s2, oracle) == Report([], s2, None);
    assert RunJobs(preps[1..], s0, oracle) == Report([Saved(j2.file)], s2, None);
  }

  /** When the second download fails, the first date is still saved and the
      failure is reported against the second. */
  lemma SecondDownloadFails(j1: Job, j2: Job, oracle: nat -> Fetch)
    requires j1.file != j2.file && oracle(0) == Downloaded && oracle(1) == FetchFailed(false)
    ensures RunJobs([Success(j1), Success(j2)], State({}, 0), oracle)
         == Report([Saved(j1.file), Failed(j2.url, j2.file)], State({j1.file}, 2), None)
  {
    var preps: seq<Result<Job, PathError>> := [Success(j1), Success(j2)];
    var s0 := State({}, 0);
    var s1 := State({j1.file}, 1);
    var s2 := State({j1.file}, 2);
    var step1 := Step(s0, j1, oracle);
    assert step1.1.files == s1.files;
    assert step1 == (Saved(j1.file), s1);
    var step2 := Step(s1, j2, oracle);
    assert step2 == (Failed(j2.url, j2.file), s2);
    assert preps[1..] == [Success(j2)] && preps[1..][1..] == [];
    assert RunJobs(preps[1..][1..], s2, oracle) == Report([], s2, None);
    assert RunJobs(preps[1..], s1, oracle) == Report([Failed(j2.url, j2.file)], s2, None);
  }

  /** A page holding exactly one complete block. */
  const OneBlockPage: String := "<img class=\"bigImg\" src=\"U\"<p>D <a href=\""

  /** Where `find`'s scanner meets each landmark of that page. */
  lemma OneBlockMarker()
    ensures IndexOf(OneBlockPage, Marker, 0) == Some(0)
    ensures IndexOf(OneBlockPage, Marker, 41) == None
  {
    assert OneBlockPage[..19] == Marker;
  }

  lemma OneBlockSource()
    ensures IndexOf(OneBlockPage, SrcOpen, 19) == Some(20)
    ensures IndexOf(OneBlockPage, SrcClose, 25) == Some(26)
  {
    assert OneBlockPage[19] != SrcOpen[0];
    assert OneBlockPage[20..25] == SrcOpen;
    assert OneBlockPage[25] != SrcClose[0];
    assert OneBlockPage[26..27] == SrcClose;
  }

  lemma OneBlockDate()
    ensures IndexOf(OneBlockPage, DateOpen, 27) == Some(27)
    ensures IndexOf(OneBlockPage, DateClose, 30) == Some(31)
  {
    assert OneBlockPage[27..30] == DateOpen;
    assert OneBlockPage[30] != DateClose[0];
    assert OneBlockPage[31..41] == DateClose;
  }

  /** A page holding one complete block gives one record: the image URL
      between `src="` and its closing quote, and the text between `<p>` and
      ` <a href="`. */
  lemma OneBlockExtracted()
    ensures Extract(OneBlockPage) == [RawRecord("U", "D")]
  {
    var m := Match(0, 20, 26, 27, 31);
    OneBlockMarker();
    OneBlockSource();
    OneBlockDate();
    assert EarliestChain(OneBlockPage, 0) == Some(m);
    assert ScanFrom(OneBlockPage, m.End()) == [];
    assert ScanFrom(OneBlockPage, 0) == [m];
    assert Captures(OneBlockPage, m) == RawRecord("U", "D");
  }
}

=== FILE: listing.dfy ===
/**
 The listing-page scan: `Matcher.find` over the pattern
   <img class="bigImg" .*? src="( .*? )" .*? <p>( .*? ) <a href="
 compiled with DOTALL, as a hand-written first-occurrence scanner.

 A match is a chain of five landmarks: the marker, `src="`, the closing
 `"`, `<p>` and ` <a href="`, each found at or after the end of the one
 before. `find` returns the chain with the leftmost start, and among chains
 with that start, the one its reluctant quantifiers try first, which is the
 one whose landmarks come earliest. The next `find` resumes at the end of
 the previous match.
 */
module ListingParser {
  import opened Wrappers
  import opened Strings

  const Marker: String := "<img class=\"bigImg\""
  const SrcOpen: String := "src=\""
  const SrcClose: String := "\""
  const DateOpen: String := "<p>"
  const DateClose: String := " <a href=\""

  /** Positions of the five landmarks of one match. */
  datatype Match = Match(start: nat, src: nat, quote: nat, para: nat, anchor: nat) {
    /** Position just after the match, where the next `find` resumes. */
    function End(): nat {
      anchor + |DateClose|
    }
  }

  /** `m` is a way for the pattern to match `text` starting at `m.start`. */
  predicate IsChain(text: String, m: Match) {
    && OccursAt(text, Marker, m.start)
    && m.start + |Marker| <= m.src && OccursAt(text, SrcOpen, m.src)
    && m.src + |SrcOpen| <= m.quote && OccursAt(text, SrcClose, m.quote)
    && m.quote + |SrcClose| <= m.para && OccursAt(text, DateOpen, m.para)
    && m.para + |DateOpen| <= m.anchor && OccursAt(text, DateClose, m.anchor)
  }

  /** Every landmark of `m` comes no later than the matching one of `c`. */
  predicate NoLater(m: Match, c: Match) {
    m.src <= c.src && m.quote <= c.quote && m.para <= c.para && m.anchor <= c.anchor
  }

  /** No chain starts at or after `from`. */
  ghost predicate NoChainFrom(text: String, from: nat) {
    forall c :: IsChain(text, c) ==> c.start < from
  }

  /** `m` is what `find` returns when it searches from `from`: no chain starts
      earlier (at or after `from`), and among chains at its start its
      landmarks come first, which is the chain the reluctant quantifiers
      settle on. */
  ghost predicate IsFindResult(text: String, from: nat, m: Match) {
    && IsChain(text, m) && from <= m.start
    && forall c :: IsChain(text, c) && from <= c.start ==>
         m.start <= c.start && (c.start == m.start ==> NoLater(m, c))
  }

  /** The matches a `while (matcher.find())` loop visits from `from`: each
      one is the find result from the end of the one before, and the loop
      ends when no chain is left. */
  ghost predicate IsFindSequence(text: String, from: nat, ms: seq<Match>)
    decreases |ms|
  {
    if |ms| == 0 then NoChainFrom(text, from)
    else IsFindResult(text, from, ms[0]) && IsFindSequence(text, ms[0].End(), ms[1..])
  }

  /** The URL capture of `m` holds no `"`. */
  predicate QuoteFreeUrl(text: String, m: Match)
    requires IsChain(text, m)
  {
    forall k :: m.src + |SrcOpen| <= k < m.quote ==> text[k] != '"'
  }

  /** Among the chains starting at or after `start`, `m`'s landmarks come
      first. */
  ghost predicate IsEarliestFrom(text: String, start: nat, m: Match) {
    forall c :: IsChain(text, c) && start <= c.start ==> NoLater(m, c)
  }

  /** The earliest landmarks after the marker at `start`: each one is the
      first occurrence after the end of the one before. */
  function EarliestChain(text: String, start: nat): (r: Option<Match>)
    requires OccursAt(text, Marker, start)
    ensures r.Some? ==> r.value.start == start && IsChain(text, r.value)
    ensures r.Some? ==> QuoteFreeUrl(text, r.value)
  {
    match IndexOf(text, SrcOpen, start + |Marker|)
    case None => None
    case Some(src) =>
      match IndexOf(text, SrcClose, src + |SrcOpen|)
      case None => None
      case Some(quote) =>
        match IndexOf(text, DateOpen, quote + |SrcClose|)
        case None => None
        case Some(para) =>
          match IndexOf(text, DateClose, para + |DateOpen|)
          case None => None
          case Some(anchor) =>
            var m := Match(start, src, quote, para, anchor);
            assert QuoteFreeUrl(text, m) by {
              forall k | src + |SrcOpen| <= k < quote
                ensures text[k] != '"'
              {
                OccursAtChar(text, '"', k);
              }
            }
            Some(m)
  }

  /** `EarliestChain` is earliest: its landmarks come no later than those of
      any chain starting at or after `start`. When it finds nothing, no chain
      starts anywhere at or after `start`: a failed marker is never followed
      by a successful one, so the scan does not need to backtrack. */
  lemma EarliestChainIsEarliest(text: String, start: nat)
    requires OccursAt(text, Marker, start)
    ensures EarliestChain(text, start).Some? ==> IsEarliestFrom(text, start, EarliestChain(text, start).value)
    ensures EarliestChain(text, start).None? ==> NoChainFrom(text, start)
  {
  }

  /** `find` from `from` either returns the earliest chain at the first
      marker, or nothing when that marker has no chain. */
  lemma FindAtFirstMarker(text: String, from: nat)
    ensures IndexOf(text, Marker, from).None? ==> NoChainFrom(text, from)
    ensures IndexOf(text, Marker, from).Some? ==>
      var start := IndexOf(text, Marker, from).value;
      match EarliestChain(text, start)
      case None => NoChainFrom(text, from)
      case Some(m) => IsFindResult(text, from, m)
  {
    if IndexOf(text, Marker, from).Some? {
      EarliestChainIsEarliest(text, IndexOf(text, Marker, from).value);
    }
  }

  /** The matches found from `from` onwards, in document order. */
  function ScanFrom(text: String, from: nat): (ms: seq<Match>)
    requires from <= |text|
    ensures IsFindSequence(text, from, ms)
    decreases |text| - from
  {
    FindAtFirstMarker(text, from);
    match IndexOf(text, Marker, from)
    case None => []
    case Some(start) =>
      match EarliestChain(text, start)
      case None => []
      case Some(m) =>
        var rest := ScanFrom(text, m.End());
        assert ([m] + rest)[1..] == rest;
        [m] + rest
  }

  /** `find` from a position has at most one result. */
  lemma FindResultUnique(text: String, from: nat, a: Match, b: Match)
    requires IsFindResult(text, from, a) && IsFindResult(text, from, b)
    ensures a == b
  {
    assert a.start == b.start && NoLater(a, b) && NoLater(b, a);
  }

  /** The find results from a position are unique, so the find sequence,
      and with it the scan, is fully determined by the page. */
  lemma {:induction false} FindSequenceUnique(text: String, from: nat, ms: seq<Match>, ns: seq<Match>)
    requires IsFindSequence(text, from, ms) && IsFindSequence(text, from, ns)
    ensures ms == ns
    decreases |ms|
  {
    if |ms| > 0 && |ns| > 0 {
      FindResultUnique(text, from, ms[0], ns[0]);
      FindSequenceUnique(text, ms[0].End(), ms[1..], ns[1..]);
      assert ms == [ms[0]] + ms[1..] && ns == [ns[0]] + ns[1..];
    }
  }

  /** The scan is the `find` loop: any sequence of matches that follows
      `find`'s rule from the start of the page is the one the scan yields. */
  lemma ScanIsFindLoop(text: String, ms: seq<Match>)
    requires IsFindSequence(text, 0, ms)
    ensures ScanFrom(text, 0) == ms
  {
    FindSequenceUnique(text, 0, ScanFrom(text, 0), ms);
  }

  /** A find result's URL capture stops at the first `"`. */
  lemma FindResultQuoteFree(text: String, from: nat, m: Match)
    requires IsFindResult(text, from, m)
    ensures QuoteFreeUrl(text, m)
  {
    forall k | m.src + |SrcOpen| <= k < m.quote
      ensures text[k] != '"'
    {
      if text[k] == '"' {
        OccursAtChar(text, '"', k);
        var c := Match(m.start, m.src, k, m.para, m.anchor);
        assert IsChain(text, c);
      }
    }
  }

  /** The matches of a find sequence are chains, in document order, that do
      not overlap, and each URL capture holds no `"`. */
  lemma {:induction false} FindSequenceOrdered(text: String, from: nat, ms: seq<Match>)
    requires IsFindSequence(text, from, ms)
    ensures forall i :: 0 <= i < |ms| ==> IsChain(text, ms[i]) && from <= ms[i].start
    ensures forall i :: 0 <= i < |ms| ==> QuoteFreeUrl(text, ms[i])
    ensures forall i :: 0 <= i < |ms| - 1 ==> ms[i].End() <= ms[i + 1].start
    decreases |ms|
  {
    if |ms| > 0 {
      FindResultQuoteFree(text, from, ms[0]);
      FindSequenceOrdered(text, ms[0].End(), ms[1..]);
      forall i | 1 <= i < |ms|
        ensures ms[i] == ms[1..][i - 1]
      {
      }
    }
  }

  /** The raw captures of one match: group 1 (the image URL) and group 2
      (the date text). */
  datatype RawRecord = RawRecord(url: String, dateText: String)

  function Captures(text: String, m: Match): (r: RawRecord)
    requires IsChain(text, m)
    ensures QuoteFreeUrl(text, m) ==> '"' !in r.url
  {
    RawRecord(text[m.src + |SrcOpen|..m.quote], text[m.para + |DateOpen|..m.anchor])
  }

  /** The records of a listing page, one per match, in document order. A
      page without a complete block, such as the empty page, has none. */
  function Extract(text: String): (rs: seq<RawRecord>)
    ensures |rs| == |ScanFrom(text, 0)|
    ensures forall i :: 0 <= i < |rs| ==>
      IsChain(text, ScanFrom(text, 0)[i]) && rs[i] == Captures(text, ScanFrom(text, 0)[i])
    ensures forall i :: 0 <= i < |rs| ==> '"' !in rs[i].url
    ensures (forall i: nat :: !OccursAt(text, Marker, i)) ==> rs == []
    ensures text == [] ==> rs == []
  {
    var ms := ScanFrom(text, 0);
    FindSequenceOrdered(text, 0, ms);
    seq(|ms|, i requires 0 <= i < |ms| => Captures(text, ms[i]))
  }
}

=== FILE: page_url.dfy ===
/**
 The listing-page URL: `isValidUrl` matches the whole input against
   http(s)?://bing\.iamdt\.cn/(\d{4}-\d{2}\.html)?
 and the page URL falls back to the default when the input is empty or
 does not match.
 */
module PageUrl {
  import opened Strings

  const DefaultPageUrl: String := "https://bing.iamdt.cn/"
  const HttpSite: String := "http://bing.iamdt.cn/"
  const HttpsSite: String := "https://bing.iamdt.cn/"

  /** Java's `\d` without UNICODE_CHARACTER_CLASS: an ASCII digit. */
  predicate IsDigit(c: char) {
    '0' <= c <= '9'
  }

  /** One position of a fixed-length regex: a literal character or `\d`. */
  datatype Token = Lit(c: char) | Digit

  predicate TokenMatches(t: Token, c: char) {
    match t
    case Lit(l) => c == l
    case Digit => IsDigit(c)
  }

  /** `\d{4}-\d{2}\.html`, one token per character it matches. */
  const ArchivePage: seq<Token> := [
    Digit, Digit, Digit, Digit, Lit('-'), Digit, Digit,
    Lit('.'), Lit('h'), Lit('t'), Lit('m'), Lit('l')]

  /** `s` matches the token sequence in full, one character per token. */
  predicate MatchesTokens(toks: seq<Token>, s: String) {
    |s| == |toks| && forall i :: 0 <= i < |s| ==> TokenMatches(toks[i], s[i])
  }

  /** The accepted page paths, spelled out: the site root, or an archive
      page `YYYY-MM.html`. */
  predicate IsArchivePath(t: String) {
    || t == []
    || (&& |t| == 12
        && IsDigit(t[0]) && IsDigit(t[1]) && IsDigit(t[2]) && IsDigit(t[3])
        && t[4] == '-' && IsDigit(t[5]) && IsDigit(t[6])
        && t[7..] == ".html")
  }

  /** The language of the pattern: either scheme, the site, an accepted path. */
  predicate InLanguage(u: String) {
    || (StartsWith(u, HttpSite) && IsArchivePath(u[|HttpSite|..]))
    || (StartsWith(u, HttpsSite) && IsArchivePath(u[|HttpsSite|..]))
  }

  /** The recogniser: `http`, an optional `s`, then `://bing.iamdt.cn/`, then
      nothing or an archive page. */
  predicate IsValidUrl(u: String) {
    && StartsWith(u, "http")
    && var rest := if |u| > 4 && u[4] == 's' then u[5..] else u[4..];
    && StartsWith(rest, Host)
    && var tail := rest[17..];
    && (tail == [] || MatchesTokens(ArchivePage, tail))
  }

  /** An archive page path spelled out character by character. */
  lemma ArchivePathChars(t: String)
    requires |t| == 12
    ensures IsArchivePath(t) <==>
      && IsDigit(t[0]) && IsDigit(t[1]) && IsDigit(t[2]) && IsDigit(t[3])
      && t[4] == '-' && IsDigit(t[5]) && IsDigit(t[6])
      && t[7] == '.' && t[8] == 'h' && t[9] == 't' && t[10] == 'm' && t[11] == 'l'
  {
    assert t[7..] == [t[7], t[8], t[9], t[10], t[11]];
  }

  /** The token form of the archive page accepts exactly the spelled-out one. */
  lemma ArchiveTokens(t: String)
    ensures t == [] || MatchesTokens(ArchivePage, t) <==> IsArchivePath(t)
  {
    if |t| == 12 {
      ArchivePathChars(t);
      if MatchesTokens(ArchivePage, t) {
        assert forall i :: 0 <= i < 12 ==> TokenMatches(ArchivePage[i], t[i]);
        assert TokenMatches(ArchivePage[0], t[0]) && TokenMatches(ArchivePage[1], t[1]);
        assert TokenMatches(ArchivePage[2], t[2]) && TokenMatches(ArchivePage[3], t[3]);
        assert TokenMatches(ArchivePage[4], t[4]) && TokenMatches(ArchivePage[5], t[5]);
        assert TokenMatches(ArchivePage[6], t[6]) && TokenMatches(ArchivePage[7], t[7]);
        assert TokenMatches(ArchivePage[8], t[8]) && TokenMatches(ArchivePage[9], t[9]);
        assert TokenMatches(ArchivePage[10], t[10]) && TokenMatches(ArchivePage[11], t[11]);
      }
    }
  }

  /** The host part of both site prefixes, as the recogniser matches it. */
  const Host: String := "://bing.iamdt.cn/"

  /** A URL starts with the `http` site prefix exactly when `http` is
      followed by the host. */
  lemma HttpPrefix(u: String)
    requires StartsWith(u, "http")
    ensures StartsWith(u, HttpSite) <==> StartsWith(u[4..], Host)
  {
    assert HttpSite == "http" + Host;
    if |u| >= 21 {
      assert u[..21] == u[..4] + u[4..][..17];
    }
  }

  /** A URL starts with the `https` site prefix exactly when `http` is
      followed by `s` and the host. */
  lemma HttpsPrefix(u: String)
    requires StartsWith(u, "http")
    ensures StartsWith(u, HttpsSite) <==> |u| > 4 && u[4] == 's' && StartsWith(u[5..], Host)
  {
    assert HttpsSite == "https" + Host;
    if |u| >= 22 {
      assert u[..22] == u[..4] + [u[4]] + u[5..][..17];
    }
  }

  /** No URL starts with both site prefixes. */
  lemma OnePrefix(u: String)
    ensures !(StartsWith(u, HttpSite) && StartsWith(u, HttpsSite))
  {
    if |u| >= 22 {
      assert u[..21][4] == u[4] == u[..22][4];
    }
  }

  /** A URL that does not start with `http` has neither site prefix. */
  lemma NoSchemeNoPrefix(u: String)
    requires !StartsWith(u, "http")
    ensures !StartsWith(u, HttpSite) && !StartsWith(u, HttpsSite)
  {
    assert HttpSite[..4] == "http" && HttpsSite[..4] == "http";
    if |u| >= 21 {
      assert u[..21][..4] == u[..4];
    }
    if |u| >= 22 {
      assert u[..22][..4] == u[..4];
    }
  }

  /** The recogniser accepts exactly the language of the pattern. */
  lemma RecogniserAcceptsLanguage(u: String)
    ensures IsValidUrl(u) <==> InLanguage(u)
  {
    if !StartsWith(u, "http") {
      NoSchemeNoPrefix(u);
    } else {
      HttpPrefix(u);
      HttpsPrefix(u);
      OnePrefix(u);
      if StartsWith(u, HttpsSite) {
        ArchiveTokens(u[|HttpsSite|..]);
        assert u[5..][17..] == u[|HttpsSite|..];
      } else if StartsWith(u, HttpSite) {
        ArchiveTokens(u[|HttpSite|..]);
        assert u[4..][17..] == u[|HttpSite|..];
      }
    }
  }

  /** `main`'s choice of page URL: the default for empty input or input the
      recogniser rejects, the input itself otherwise. The chosen URL is
      always one the recogniser accepts. */
  function ChoosePageUrl(input: String): (url: String)
    ensures IsValidUrl(url)
    ensures IsValidUrl(input) ==> url == input
    ensures !IsValidUrl(input) ==> url == DefaultPageUrl
    ensures input == [] ==> url == DefaultPageUrl
  {
    var pageUrl := if input == [] then DefaultPageUrl else input;
    if !IsValidUrl(pageUrl) then DefaultPageUrl else pageUrl
  }
}

=== FILE: paths.dfy ===
/**
 Field normalisation and the destination of a record: the date text is
 trimmed and stripped of `-`, its first four characters name the year
 directory, the next two the month directory, and the file is the date
 with `.jpg` appended: `root/YYYY/MM/date.jpg`.
 */
module PathDeriver {
  import opened Wrappers
  import opened Strings

  const Extension: String := ".jpg"

  /** The unchecked exceptions that end the run while a record is prepared:
      `String.substring` past the end of a date shorter than six characters,
      and `Paths.get` rejecting a directory or file path
      (`InvalidPathException`). */
  datatype PathError = InvalidDate(date: String) | InvalidPath(path: String)

  /** Where a record's image is stored. */
  datatype Destination = Destination(root: String, sep: String, date: String) {
    function Year(): String
      requires |date| >= 6
    {
      date[..4]
    }

    function Month(): String
      requires |date| >= 6
    {
      date[4..6]
    }

    /** The year/month sub-directory the loop creates before the existence check. */
    function Dir(): String
      requires |date| >= 6
    {
      root + sep + Year() + sep + Month()
    }

    function File(): String
      requires |date| >= 6
    {
      Dir() + sep + date + Extension
    }
  }

  /** The date of a record: its text trimmed, with every `-` deleted. */
  function NormaliseDate(dateText: String): (d: String)
    ensures '-' !in d
    ensures |d| <= |dateText|
    ensures forall x :: x != '-' ==> multiset(d)[x] == multiset(Trim(dateText))[x]
  {
    RemoveAllCounts(Trim(dateText), '-');
    RemoveAll(Trim(dateText), '-')
  }

  /** The destination of a normalised date, or the error `substring` raises
      when the date is too short to hold a year and a month. */
  function Derive(root: String, sep: String, date: String): (r: Result<Destination, PathError>)
    ensures r.Success? <==> |date| >= 6
    ensures r.Failure? ==> r.error == InvalidDate(date)
    ensures r.Success? ==> r.value.date == date && r.value.root == root && r.value.sep == sep
  {
    if |date| < 6 then Failure(InvalidDate(date)) else Success(Destination(root, sep, date))
  }

  /** Reads the date back out of a destination file path. */
  function DateOfFile(root: String, sep: String, file: String): Option<String> {
    var head := |root| + 3 * |sep| + 6;
    if |file| < head + |Extension| then None else Some(file[head..|file| - |Extension|])
  }

  /** Every destination has the layout `root/YYYY/MM/date.jpg`: a four
      character year and a two character month taken from the front of the
      date, and the date can be read back from the path. */
  lemma DestinationLayout(root: String, sep: String, date: String)
    requires |date| >= 6
    ensures var d := Derive(root, sep, date).value;
      && |d.Year()| == 4 && |d.Month()| == 2
      && d.Year() + d.Month() == date[..6]
      && d.File() == root + sep + d.Year() + sep + d.Month() + sep + date + ".jpg"
      && DateOfFile(root, sep, d.File()) == Some(date)
  {
    var d := Derive(root, sep, date).value;
    var f := d.File();
    var head := |root| + 3 * |sep| + 6;
    assert f == root + sep + date[..4] + sep + date[4..6] + sep + date + Extension;
    assert f[head..|f| - |Extension|] == date;
  }

  /** Different dates give different file path strings. */
  lemma DistinctDatesDistinctFiles(root: String, sep: String, d1: String, d2: String)
    requires |d1| >= 6 && |d2| >= 6 && d1 != d2
    ensures Derive(root, sep, d1).value.File() != Derive(root, sep, d2).value.File()
  {
    DestinationLayout(root, sep, d1);
    DestinationLayout(root, sep, d2);
  }
}

=== FILE: strings.dfy ===
/**
 The few `java.lang.String` operations the downloader relies on, over
 strings modelled as sequences of characters: `indexOf`, `startsWith`,
 `split` on a single character, `trim` and `replace` of one character by
 nothing.
 */
module Strings {
  import opened Wrappers

  type String = seq<char>

  /** `pat` occurs in `s` starting at position `i`. */
  predicate OccursAt(s: String, pat: String, i: nat) {
    i + |pat| <= |s| && s[i..i + |pat|] == pat
  }

  /** Java's `s.startsWith(prefix)`. */
  predicate StartsWith(s: String, prefix: String) {
    OccursAt(s, prefix, 0)
  }

  /** Java's `s.indexOf(pat, from)` for a non-empty pattern: the first
      position at or after `from` where `pat` occurs, or `None` for Java's
      `-1`. (For an empty pattern and `from > |s|`, Java returns `|s|`; the
      code never asks that.) */
  function IndexOf(s: String, pat: String, from: nat): (r: Option<nat>)
    ensures r.Some? ==> from <= r.value && OccursAt(s, pat, r.value)
    ensures r.Some? ==> forall j: nat :: from <= j < r.value ==> !OccursAt(s, pat, j)
    ensures r.None? ==> forall j: nat :: from <= j ==> !OccursAt(s, pat, j)
    decreases |s| - from
  {
    if from + |pat| > |s| then None
    else if OccursAt(s, pat, from) then Some(from)
    else IndexOf(s, pat, from + 1)
  }

  /** A one-character pattern occurs exactly where that character stands. */
  lemma OccursAtChar(s: String, c: char, i: nat)
    ensures OccursAt(s, [c], i) <==> i < |s| && s[i] == c
  {
    if i < |s| && s[i] == c {
      assert s[i..i + 1] == [c];
    }
  }

  /** `indexOf` of a single character finds its first occurrence, and finds
      nothing exactly when the character is absent. */
  lemma IndexOfChar(s: String, c: char)
    ensures IndexOf(s, [c], 0).None? <==> c !in s
    ensures IndexOf(s, [c], 0).Some? ==>
      var i := IndexOf(s, [c], 0).value;
      i < |s| && s[i] == c && c !in s[..i]
  {
    var r := IndexOf(s, [c], 0);
    if r.Some? {
      OccursAtChar(s, c, r.value);
      forall j | 0 <= j < r.value
        ensures s[j] != c
      {
        OccursAtChar(s, c, j);
      }
    } else {
      forall j | 0 <= j < |s|
        ensures s[j] != c
      {
        OccursAtChar(s, c, j);
      }
    }
  }

  /** Joins parts with a separator in between; the inverse of `Split`. */
  function Join(parts: seq<String>, sep: char): String
    decreases |parts|
  {
    if |parts| == 0 then []
    else if |parts| == 1 then parts[0]
    else parts[0] + [sep] + Join(parts[1..], sep)
  }

  /**
   Java's `s.split(sep)` for a one-character separator: the maximal
   separator-free pieces, in order. (Java additionally drops trailing empty
   pieces; see `Split` under "Left out".)
   */
  function Split(s: String, sep: char): (parts: seq<String>)
    ensures |parts| >= 1
    ensures forall i :: 0 <= i < |parts| ==> sep !in parts[i]
    ensures Join(parts, sep) == s
    decreases |s|
  {
    IndexOfChar(s, sep);
    match IndexOf(s, [sep], 0)
    case None => [s]
    case Some(i) =>
      var rest := Split(s[i + 1..], sep);
      assert ([s[..i]] + rest)[1..] == rest;
      assert s[..i] + [sep] + s[i + 1..] == s;
      [s[..i]] + rest
  }

  /** Splitting peels off the text before the first separator. */
  lemma SplitFirst(a: String, b: String, sep: char)
    requires sep !in a
    ensures Split(a + [sep] + b, sep) == [a] + Split(b, sep)
  {
    var s := a + [sep] + b;
    IndexOfChar(s, sep);
    var i := IndexOf(s, [sep], 0).value;
    assert s[|a|] == sep;
    assert s[..i] == a && s[i + 1..] == b;
  }

  /** A string without the separator splits into itself alone. */
  lemma SplitNoSeparator(s: String, sep: char)
    requires sep !in s
    ensures Split(s, sep) == [s]
  {
    IndexOfChar(s, sep);
  }

  /** The characters Java's `trim` cuts from either end of a string: those
      at or below U+0020. */
  predicate IsTrimmable(c: char) {
    c <= ' '
  }

  /** Drops leading trimmable characters. */
  function TrimStart(s: String): (r: String)
    ensures |r| <= |s| && r == s[|s| - |r|..]
    ensures forall k :: 0 <= k < |s| - |r| ==> IsTrimmable(s[k])
    ensures r == [] || !IsTrimmable(r[0])
    decreases |s|
  {
    if |s| > 0 && IsTrimmable(s[0]) then TrimStart(s[1..]) else s
  }

  /** Drops trailing trimmable characters. */
  function TrimEnd(s: String): (r: String)
    ensures |r| <= |s| && r == s[..|r|]
    ensures forall k :: |r| <= k < |s| ==> IsTrimmable(s[k])
    ensures r == [] || !IsTrimmable(r[|r| - 1])
    decreases |s|
  {
    if |s| > 0 && IsTrimmable(s[|s| - 1]) then TrimEnd(s[..|s| - 1]) else s
  }

  /** `s[i..j]` is what is left once trimmable characters are cut from both
      ends: everything before `i` and from `j` on is trimmable. */
  predicate TrimmedAt(s: String, i: int, j: int) {
    && 0 <= i <= j <= |s|
    && (forall k :: 0 <= k < i ==> IsTrimmable(s[k]))
    && (forall k :: j <= k < |s| ==> IsTrimmable(s[k]))
  }

  /** Java's `s.trim()`: trimmable characters removed from both ends. */
  function Trim(s: String): (r: String)
    ensures |r| <= |s|
    ensures r == [] || (!IsTrimmable(r[0]) && !IsTrimmable(r[|r| - 1]))
  {
    var t := TrimStart(s);
    TrimEnd(t)
  }

  /** The trim is the slice of `s` between its leading and its trailing
      trimmable characters. */
  lemma TrimCutsBlanks(s: String)
    ensures exists i, j :: TrimmedAt(s, i, j) && Trim(s) == s[i..j]
  {
    var t := TrimStart(s);
    var r := TrimEnd(t);
    var i := |s| - |t|;
    assert r == s[i..i + |r|];
    assert forall k :: i + |r| <= k < |s| ==> s[k] == t[k - i];
    assert TrimmedAt(s, i, i + |r|);
  }

  /** A trimmed string is left alone by a second trim. */
  lemma TrimIdempotent(s: String)
    ensures Trim(Trim(s)) == Trim(s)
  {
    var r := Trim(s);
    assert TrimStart(r) == r;
    assert TrimEnd(r) == r;
  }

  /** Java's `s.replace(c, "")` for a one-character target: every occurrence
      of `c` deleted. */
  function RemoveAll(s: String, c: char): (r: String)
    ensures c !in r
    ensures |r| <= |s|
    decreases |s|
  {
    if |s| == 0 then []
    else if s[0] == c then RemoveAll(s[1..], c)
    else [s[0]] + RemoveAll(s[1..], c)
  }

  /** Deleting `c` keeps every other character, as often as it occurs, and
      shortens the string by the number of `c`s. */
  lemma {:induction false} RemoveAllCounts(s: String, c: char)
    ensures |RemoveAll(s, c)| == |s| - multiset(s)[c]
    ensures forall x :: x != c ==> multiset(RemoveAll(s, c))[x] == multiset(s)[x]
    decreases |s|
  {
    if |s| > 0 {
      RemoveAllCounts(s[1..], c);
      assert s == [s[0]] + s[1..];
    }
  }

  /** Deletion works piecewise, so the kept characters stay in order. */
  lemma {:induction false} RemoveAllAppend(a: String, b: String, c: char)
    ensures RemoveAll(a + b, c) == RemoveAll(a, c) + RemoveAll(b, c)
    decreases |a|
  {
    if |a| > 0 {
      assert (a + b)[1..] == a[1..] + b;
      RemoveAllAppend(a[1..], b, c);
    } else {
      assert a + b == b;
    }
  }

  /** A string without `c` is unchanged by deleting `c`. */
  lemma {:induction false} RemoveAllAbsent(s: String, c: char)
    requires c !in s
    ensures RemoveAll(s, c) == s
    decreases |s|
  {
    if |s| > 0 {
      assert c !in s[1..];
      RemoveAllAbsent(s[1..], c);
    }
  }
}

=== FILE: wrappers.dfy ===
/** Failure-carrying datatypes shared by the model. */
module Wrappers {

  /** An optional value: `None` stands for Java's `-1` / `null` "not found" answers. */
  datatype Option<+T> = None | Some(value: T)

  /** A computation that either produced a value or raised an error. */
  datatype Result<+R, +E> = Success(value: R) | Failure(error: E)
}
